=== FILE: README.md ===
# Space-wars arithmetic game: a Dafny model of its bookkeeping

The game (`js/game.js`, `js/questionGenerator.js`) shows arithmetic questions on
falling ships. The player types an answer to shoot a ship before it reaches the
base at the bottom of the canvas. This project models the deterministic core
of that game as pure functions over immutable records:

- `Entities` (entities.dfy): `Beam`, `Base`, `Ship`, `UserInput` and `Score`,
  each with its update operations.
- `GameController` (game.dfy): the `Game` state. It holds the fixed pool of ten
  ships, the beam list, the base, the score, the typed answer and the generator
  settings. It also holds two booleans that stand for the host's timers:
  `spawnTimer` (the `setInterval` that spawns ships is still live) and
  `frameScheduled` (a `requestAnimationFrame` call to `run()` is pending). The
  steps are `SpawnShip`, `HandleKey`, `ProcessAnswer`, `Pause`, `Step`
  (one frame, `update()`) and `RunFrame` (`run()`).
- `QuestionGenerator` (question_generator.dfy): `BasicMathGenerator`'s settings,
  `_getNumber`, `_getOperator` and `generate`. The operator is applied directly
  (`Apply`) instead of evaluating text. `Parse` splits a question text back into
  its operands.
- `Decimal`, `JsMath`, `Options`: decimal numerals, `Math.round`, and `null` as
  `Option`.

`Math.random()` values come in as real parameters `u` with `0 <= u < 1`
(`UnitDraw`). Every place the source calls `Math.round(Math.random() * n)` is
modelled as `Round(u * n)`, where `Round(x)` is `floor(x + 0.5)`. So the ranges
below hold for any source of randomness. The loops that mutate arrays in place
(the beam pass with `splice`, the collision pass) are methods with loop
invariants. Each is proved equal to a recursive or comprehension-based
function, and the properties are stated about that function.

The model follows the code as written, including these behaviours:

- `_processAnswer` does not skip dead ships. A dead ship with the same answer
  takes the shot. A ship that was never spawned has no question and answers `""`.
  So an empty submission on a new game hits ship 0 and scores
  `round(height / 4)`.
- An empty operator list is not rejected. `_getOperator` yields `undefined`,
  and the question and the answer are both `NaN`.
- `Game` lays its own defaults (`maxNumber` 20, `wholeNumbers` true,
  `operators` `["+","-"]`) under the caller's settings. So a game without
  settings asks questions up to 20, not 10.
- The spawn speed is `round(score / 1000) * 1.1`, raised to at least 1.0 by
  `setSpeed`.
- Pausing clears the spawn interval for good. Once a frame has run while
  paused, no further frame is requested; Escape again sets `paused` back to
  false, but nothing requests a new frame or a new interval, so the game stays
  frozen. If both Escapes arrive before the pending frame runs, that frame sees
  an unpaused game and keeps the frames going, still without spawns.
- `_handleInput` appends every key name other than Enter, Backspace, Escape,
  Shift, Control and Alt. Names such as `"Tab"` are appended whole.

## Model

| member | source | states |
|---|---|---|
| Entities.Beam.Update | js/game.js:58-64 | one update lowers durability by exactly 1 and keeps the beam active only if it was active with at least 2 left; start and end are kept |
| Entities.BeamTicksLaw | js/game.js:58-64 | after n updates the durability is n lower, and the beam is active iff it was active and n = 0 or n < its starting durability |
| Entities.NewBeamLifetime | js/game.js:39-64 | a new beam (durability 20) is active for its first 19 updates and inactive from exactly the 20th on |
| Entities.Base.AddShield | js/game.js:91-93 | adds exactly n shields and keeps the position |
| Entities.Base.RemoveShield | js/game.js:95-98 | the result is never below 0, never below shields - n, and is either 0 or exactly shields - n |
| Entities.NewBaseShields | js/game.js:67-71 | a new base has 2 shields at the given position |
| Entities.RemoveUndoesAdd | js/game.js:91-98 | on a base with a non-negative count, removing n after adding n gives the base back |
| Entities.Ship.SetSpeed | js/game.js:127-129 | the stored factor is at least 1.0 and at least the argument, and is one of the two; nothing else changes |
| Entities.Ship.Revive | js/game.js:174-176 | the ship is alive afterwards; position, speed and question are kept, and a live ship is unchanged |
| Entities.Ship.Kill | js/game.js:181-183 | the ship is dead afterwards; position, speed and question are kept, and a dead ship is unchanged |
| Entities.AnswerMatches | js/game.js:159-161 | a ship without a question matches exactly the empty input; a ship with one matches iff its answer equals the input under the loose comparison |
| Entities.Ship.Update | js/game.js:188-192 | a dead ship is unchanged; a live ship keeps x and falls by exactly 0.5 times its speed factor |
| Entities.ShipTicksLaw | js/game.js:188-192 | after n frames a live ship is exactly n * 0.5 * speed lower with x unchanged, and a dead ship is unchanged |
| Entities.UserInput.Clear | js/game.js:235-241 | clear(true) empties the buffer; clear() removes exactly the last character (one UTF-16 unit in the source, so this holds for characters of the Basic Multilingual Plane), and "" stays "" |
| Entities.UserInput.Add | js/game.js:243-245 | the buffer is the old text followed by the key string verbatim |
| Entities.AddThenClearLast | js/game.js:235-245 | adding one character of the Basic Multilingual Plane and clearing one restores the buffer |
| Entities.Score.Damage | js/game.js:297-299 | lives drop by exactly n with no clamp; the score is kept |
| Entities.Score.AddScore | js/game.js:313-315 | the score grows by exactly n; lives are kept |
| Entities.ScoreLaws | js/game.js:297-315 | two damages add up, two score additions add up, damage and score additions commute, and adding -n undoes adding n |
| GameController.NewGame | js/game.js:324-380 | a new game satisfies the invariant `Valid`: ten dead ships without questions, no beams, score 0, 3 lives, 2 shields, empty input, not paused, spawn interval live |
| GameController.NewGameGenerator | js/game.js:326-330 | the generator sees the caller's settings over the game's defaults, which lie over the generator's own: maxNumber 20, negativeNumbers false, wholeNumbers true, operators + and - |
| GameController.FirstWhere | js/game.js:400-413 | the pool scan returns the first index satisfying the test (none before it), or None exactly when no index does |
| GameController.SpawnShip | js/game.js:397-416 | with no dead ship the game is unchanged; only the ship pool can change, and `Valid` is preserved |
| GameController.SpeedForScore | js/game.js:406 | the requested speed is 0 for a score in [-500, 500), at least 1.1 from 500 on, and at most -1.1 below -500 |
| GameController.SpeedForScoreMonotone | js/game.js:406 | a higher score never requests a lower speed |
| GameController.Respawned | js/game.js:402-408 | a respawned ship is alive with speed factor at least 1.0 |
| GameController.SpawnX | js/game.js:405 | the spawn column lies between 50 and width - 50 (in either order when the canvas is narrower than 100) |
| GameController.SpawnRevivesFirstDead | js/game.js:397-416 | the first dead ship in pool order is revived at y = -30 with the generated question and speed max(1.0, round(score/1000) * 1.1); every other ship is unchanged |
| GameController.SpawnLiveCount | js/game.js:397-416 | a spawn adds exactly one live ship while a dead one exists, and is a no-op on a full pool |
| GameController.SpawnManyLiveCount | js/game.js:397-416 | n spawns raise the live count to min(live + n, pool size) |
| GameController.EmptyPoolFills | js/game.js:397-416 | on a pool of dead ships, one spawn per ship makes every ship live, and a further spawn changes nothing |
| GameController.TenSpawnsFillPool | js/game.js:350-416 | on a new game ten spawns make all ten ships live and an eleventh is a no-op |
| GameController.MissTarget | js/game.js:527-530 | a missed shot lands at x in [0, width], and at y in [0, height - 100] when the canvas is at least 100 high, in [height - 100, 0] otherwise |
| GameController.ProcessAnswer | js/game.js:515-532 | exactly one new beam (durability 20, from the base) is appended; the input is cleared; the first matching ship in pool order, dead or alive, is killed and the score rises by round((height - y)/4), possibly a negative amount; with no match no ship and no score changes and the beam goes to the miss target; `Valid` is preserved |
| GameController.HitScore | js/game.js:521 | the points for a hit are round((height - y) / 4): within a half of the exact quarter, non-negative for a ship at or above the bottom edge, negative for one more than two units below it |
| GameController.AtMostOneKill | js/game.js:517-524 | a submission changes at most one ship and lowers the live count by at most one |
| GameController.DeadShipShadowsLiveShip | js/game.js:517-524 | when the first matching ship is dead, no ship changes and a later live ship with the same answer survives |
| GameController.FreshGameEmptyEnterScores | js/game.js:159-532 | Enter on the empty input of a new game kills ship 0 (answer "") and scores round(height/4) |
| GameController.Pause | js/game.js:382-390 | paused is toggled; the spawn interval survives only if it was live and the game is being resumed |
| GameController.HandleKey | js/game.js:422-439 | Enter submits, Backspace deletes one character, Escape empties the input and toggles pause, Shift/Control/Alt change nothing, any other key name is appended whole; `Valid` is preserved |
| GameController.TypeThenBackspace | js/game.js:422-439 | typing a single character of the Basic Multilingual Plane and then Backspace gives the game back unchanged |
| GameController.PruneBeams | js/game.js:482-489 | the beam pass never lengthens the list |
| GameController.PruneNoExpiry | js/game.js:482-489 | while no beam is about to go out, the pass keeps every beam in order, each exactly one update older |
| GameController.PruneRemovesAtMostExpiring | js/game.js:482-489 | the pass shortens the list by no more than the number of beams that would go out on their own update |
| GameController.PruneKeepsSurvivors | js/game.js:482-489 | every beam that survives its own update is still in the list after the pass, updated or unchanged |
| GameController.VisitedSurvivorIsUpdated | js/game.js:482-489 | a surviving beam that is first in the list or follows a beam that also survives is in the list after the pass in its updated form |
| GameController.UpdateBeams | js/game.js:482-489 | the index-and-splice loop computes exactly `PruneBeams` |
| GameController.PruneKeepsLiveBeams | js/game.js:482-489 | if every beam was active with 1..20 frames left, so is every beam after the pass |
| GameController.PruneKeepsOrder | js/game.js:482-489 | the surviving beams are a subsequence of the old list in the same order, each the same beam at most one frame older |
| GameController.SpliceSkipsNext | js/game.js:486-488 | when the first beam goes out, the second is kept without being decremented that frame |
| GameController.SpliceSkipsNextAt | js/game.js:482-489 | when the pass reaches a beam that goes out anywhere in the list, the beam after it is kept without being decremented that frame |
| GameController.SpliceSkipsNextExample | js/game.js:482-489 | two beams with one frame left become one beam that still has one frame left |
| GameController.RemoveShieldsLaw | js/game.js:95-98 | k calls of removeShield(1) leave max(shields - k, 0) shields for k > 0 |
| GameController.CollideAll | js/game.js:445-459 | every live ship at or below the bottom edge becomes dead in place; other ships are untouched; lives drop by exactly the number of such ships without clamp; shields drop by the same number floored at 0; the score is kept |
| GameController.CheckCollision | js/game.js:445-459 | the ship-by-ship loop computes exactly `CollideAll` |
| GameController.Step | js/game.js:477-492 | a frame advances every ship, prunes beams as `PruneBeams`, then applies the collision rule to the advanced ships: each of the k breaching ships dies, lives drop by k, shields drop by k floored at 0 (unchanged when k = 0), the score and the base position are kept; `Valid` is preserved |
| GameController.RunFrame | js/game.js:494-508 | after a frame the next one is requested iff the game is not paused and lives are above 0; the spawn interval is cleared when an unpaused game has no lives left |
| GameController.SpawnTimerNeverRestarts | js/game.js:382-508 | once the spawn interval is cleared, no spawn, key, pause or frame brings it back |
| GameController.QuickResumeKeepsRunning | js/game.js:382-508 | two Escapes before the pending frame leave the game unpaused with that frame still pending and no spawn interval, and the frame requests the next one while lives remain |
| GameController.ResumeDoesNotRestart | js/game.js:382-508 | Escape, a frame, then Escape again leave the game unpaused but with no frame requested and no spawn interval |
| JsMath.RoundDrawBounds | js/questionGenerator.js:17 | round(u * n) lies between 0 and n for u in [0, 1), for either sign of n |
| QuestionGenerator.Overlay | js/questionGenerator.js:3-8 | each key present in the supplied settings wins; each absent key keeps the default |
| QuestionGenerator.Configure | js/questionGenerator.js:2-14 | defaults maxNumber 10, negativeNumbers false, wholeNumbers true, operators + and -, overridden key by key; no settings gives exactly the defaults |
| QuestionGenerator.GetNumber | js/questionGenerator.js:16-20 | the draw is a whole number in [0, max], and 0 when max is 0 |
| QuestionGenerator.GetOperator | js/questionGenerator.js:22-24 | for a non-empty list the index is in [0, length - 1] and the result is that element; for an empty list there is no operator |
| QuestionGenerator.Operands | js/questionGenerator.js:29-39 | whole-number division: second in [0, max] and first = second * k for the second draw k; subtraction without negatives: second <= first <= max; otherwise both in [0, max] |
| QuestionGenerator.Draw | js/questionGenerator.js:26-39 | there is a problem iff the operator list is non-empty; its operator is in the list and its second operand is at most maxNumber |
| QuestionGenerator.Generate | js/questionGenerator.js:26-45 | the text parses back to the drawn problem and evaluating the text gives exactly the answer; with no operators the question is NaN/NaN |
| QuestionGenerator.ParseText | js/questionGenerator.js:42 | splitting `first op second` at its first non-digit gives back both operands and the operator |
| QuestionGenerator.DivisionLaw | js/questionGenerator.js:30-32 | for "/" with wholeNumbers: second and k in [0, max], first = second * k <= max^2, answer exactly k when second is not 0, and 0/0 gives NaN |
| QuestionGenerator.SubtractionLaw | js/questionGenerator.js:33-35 | for "-" without negative numbers 0 <= second <= first <= max, and the answer lies in [0, max] |
| QuestionGenerator.IndependentOperandsLaw | js/questionGenerator.js:36-38 | otherwise both operands are independent draws in [0, max], and the answer is their sum, difference, product or true quotient |
| QuestionGenerator.ZeroBoundGivesZeros | js/questionGenerator.js:16-20 | with maxNumber 0 both operands are 0 |
| Decimal.ParseNatToString | js/questionGenerator.js:42 | reading back the decimal numeral of n gives n |

## Left out

- Drawing and the DOM are left out: `DrawText`, every `draw` method, `_clearCanvas`, the canvas lookup and the start-button wiring. So are the fields read only when drawing: ship size and text colour, and the positions of the score and input widgets.
- `setInterval`, `clearInterval` and `requestAnimationFrame` are the booleans `spawnTimer` and `frameScheduled`. Which step the host calls when, including interleavings, is left to the caller.
- `Math.random()` is a parameter in [0, 1). Whether draws are uniform is not modelled.
- Floating point is not modelled. Positions, speeds and answers are exact reals, so `1.1 * k` and non-whole quotients have no rounding error here.
- Entities.AnswerMatches: JavaScript's loose `==` between a numeric answer and the typed string is a parameter `eq`. Only the `""` answer of a ship without a question is compared exactly.
- Entities.UserInput.Clear: the buffer is a sequence of Unicode code points, while `slice(0, -1)` removes one UTF-16 unit; for a trailing character outside the Basic Multilingual Plane the source leaves a lone surrogate, which is not modelled.
- Entities.AddThenClearLast: holds in the source only for characters of the Basic Multilingual Plane, for the reason above.
- GameController.TypeThenBackspace: holds in the source only for characters of the Basic Multilingual Plane, for the reason above.
- QuestionGenerator.Generate: operands are unbounded naturals. JavaScript numbers are exact only below 2^53 and are written in exponent form from 1e21 on, so in the source the text round trip holds only while maxNumber^2 (the largest first operand of a division) stays below 2^53.
- QuestionGenerator.ParseText: same operand-size limit as `Generate`.
- Operators are the four symbols the start form can produce. Arbitrary strings in the operator list are not modelled.
- `maxNumber` is a natural number. The form's string value and negative bounds are not modelled.
- `eval` is replaced by `Apply`, and `console.log` is dropped.
- `Ship.setPosition`, `setData` and `getPosition` are plain field writes and reads inside `Respawned`. `UserInput.get` is the `text` field.

=== FILE: decimal.dfy ===
/** Decimal numerals of natural numbers: the digits alone, without leading zeros or exponent. */
module Decimal {

  predicate IsDigit(c: char) {
    '0' <= c <= '9'
  }

  predicate AllDigits(s: string) {
    forall i :: 0 <= i < |s| ==> IsDigit(s[i])
  }

  function DigitChar(d: nat): (c: char)
    requires d < 10
    ensures IsDigit(c)
  {
    "0123456789"[d]
  }

  function DigitValue(c: char): (d: nat)
    requires IsDigit(c)
    ensures d < 10 && DigitChar(d) == c
  {
    (c as int) - ('0' as int)
  }

  /** The shortest decimal numeral of `n`. */
  function NatToString(n: nat): (s: string)
    ensures |s| >= 1 && AllDigits(s)
    ensures n >= 10 ==> s[0] != '0'
    decreases n
  {
    if n < 10 then [DigitChar(n)] else NatToString(n / 10) + [DigitChar(n % 10)]
  }

  /** The value of a string of decimal digits. */
  function ParseNat(s: string): nat
    requires AllDigits(s)
    decreases |s|
  {
    if |s| == 0 then 0 else ParseNat(s[..|s| - 1]) * 10 + DigitValue(s[|s| - 1])
  }

  lemma {:induction false} DigitValueOfDigitChar(d: nat)
    requires d < 10
    ensures DigitValue(DigitChar(d)) == d
  {
  }

  /** Reading back the numeral of `n` gives `n`. */
  lemma {:induction false} ParseNatToString(n: nat)
    ensures ParseNat(NatToString(n)) == n
    decreases n
  {
    var s := NatToString(n);
    if n < 10 {
      DigitValueOfDigitChar(n);
      assert s[..0] == [];
    } else {
      ParseNatToString(n / 10);
      DigitValueOfDigitChar(n % 10);
      assert s[..|s| - 1] == NatToString(n / 10);
    }
  }

  /** Index of the first character that is not a digit, or |s| if there is none. */
  function FirstNonDigit(s: string): (i: nat)
    ensures i <= |s| && AllDigits(s[..i])
    ensures i < |s| ==> !IsDigit(s[i])
    decreases |s|
  {
    if |s| == 0 || !IsDigit(s[0]) then 0
    else
      var j := FirstNonDigit(s[1..]);
      assert s[..1 + j] == [s[0]] + s[1..][..j];
      1 + j
  }

  /** Digits, then a non-digit: the scan stops exactly at the non-digit. */
  lemma FirstNonDigitAfterDigits(x: string, c: char, y: string)
    requires AllDigits(x) && !IsDigit(c)
    ensures FirstNonDigit(x + [c] + y) == |x|
  {
    var s := x + [c] + y;
    assert s[|x|] == c;
    assert forall k :: 0 <= k < |x| ==> s[k] == x[k];
  }
}

=== FILE: entities.dfy ===
/**
 * The game objects of `js/game.js`: beams, the base, ships, the typed-answer
 * buffer and the score counter, as immutable records whose methods return the
 * updated record. Fields read only by drawing code are left out.
 */
module Entities {
  import opened Options
  import opened JsMath
  import opened QuestionGenerator

  const DefaultShipSpeed: real := 0.5
  const MinShipSpeedFactor: real := 1.0
  const DefaultSpeedupFactor: real := 1.1
  const DefaultSpeedupScore: int := 1000
  const DefaultBeamLife: int := 20
  const DefaultShields: int := 2
  const DefaultLives: int := 3

  datatype Position = Position(x: real, y: real)

  /** A shot from the base; it is shown while `active`. */
  datatype Beam = Beam(start: Position, end: Position, durability: int, active: bool) {

    /** One frame: the durability drops by one, and the beam goes out once it reaches 0. */
    function Update(): (b: Beam)
      ensures b.start == start && b.end == end
      ensures b.durability + 1 == durability
      ensures b.active <==> active && durability >= 2
    {
      var d := durability - 1;
      this.(durability := d, active := if d <= 0 then false else active)
    }
  }

  function NewBeam(start: Position, end: Position): Beam {
    Beam(start, end, DefaultBeamLife, true)
  }

  /** The beam after `n` calls of `update()`. */
  function BeamTicks(b: Beam, n: nat): Beam
    decreases n
  {
    if n == 0 then b else BeamTicks(b, n - 1).Update()
  }

  /** After n frames the durability is n lower, and the beam is active iff it was and n < durability. */
  lemma {:induction false} BeamTicksLaw(b: Beam, n: nat)
    ensures BeamTicks(b, n).start == b.start && BeamTicks(b, n).end == b.end
    ensures BeamTicks(b, n).durability == b.durability - n
    ensures BeamTicks(b, n).active <==> b.active && (n == 0 || n < b.durability)
    decreases n
  {
    if n > 0 {
      BeamTicksLaw(b, n - 1);
    }
  }

  /** A new beam is active for its first 19 updates and goes out on exactly the 20th. */
  lemma NewBeamLifetime(start: Position, end: Position, n: nat)
    ensures BeamTicks(NewBeam(start, end), n).active <==> n < DefaultBeamLife
    ensures n <= DefaultBeamLife ==> BeamTicks(NewBeam(start, end), n).durability == DefaultBeamLife - n
  {
  }

  /** The defended base with its shield count. */
  datatype Base = Base(position: Position, shields: int) {

    /** `addShield(n)`. */
    function AddShield(n: int): (r: Base)
      ensures r.position == position
      ensures r.shields - shields == n
    {
      this.(shields := shields + n)
    }

    /** `removeShield(n)`: takes n shields away but never leaves fewer than 0. */
    function RemoveShield(n: int): (r: Base)
      ensures r.position == position
      ensures r.shields >= 0 && r.shields >= shields - n
      ensures r.shields == 0 || r.shields == shields - n
    {
      var s := shields - n;
      this.(shields := if s < 0 then 0 else s)
    }
  }

  function NewBase(position: Position): Base {
    Base(position, DefaultShields)
  }

  /** A new base starts with two shields. */
  lemma NewBaseShields(position: Position)
    ensures NewBase(position).shields == 2 && NewBase(position).position == position
  {
  }

  /** Removing n after adding n restores a base whose shield count is not negative, for any n. */
  lemma RemoveUndoesAdd(b: Base, n: int)
    requires b.shields >= 0
    ensures b.AddShield(n).RemoveShield(n) == b
  {
  }

  /** A falling ship carrying a question; a dead ship is neither moved nor drawn. */
  datatype Ship = Ship(position: Position, speed: real, data: Option<Question>, dead: bool) {

    /** `setSpeed(s)`: speed factors below 1.0 are raised to 1.0. */
    function SetSpeed(s: real): (r: Ship)
      ensures r.speed >= MinShipSpeedFactor && r.speed >= s
      ensures r.speed == MinShipSpeedFactor || r.speed == s
      ensures r == this.(speed := r.speed)
    {
      this.(speed := if s < 1.0 then 1.0 else s)
    }

    /** `update()`: a live ship falls by the base speed times its speed factor. */
    function Update(): (r: Ship)
      ensures dead ==> r == this
      ensures r.position.x == position.x && r.speed == speed && r.data == data && r.dead == dead
      ensures !dead ==> r.position.y - position.y == DefaultShipSpeed * speed
    {
      if dead then this
      else this.(position := Position(position.x, position.y + DefaultShipSpeed * speed))
    }

    /** `kill()`: the ship is dead afterwards and stays where it is; killing a dead ship changes nothing. */
    function Kill(): (r: Ship)
      ensures r.dead && r.position == position && r.speed == speed && r.data == data
      ensures dead ==> r == this
    {
      this.(dead := true)
    }

    /** `revive()`: the ship is alive afterwards with position, speed and question kept. */
    function Revive(): (r: Ship)
      ensures !r.dead && r.position == position && r.speed == speed && r.data == data
      ensures !dead ==> r == this
    {
      this.(dead := false)
    }
  }

  /** A ship as the constructor leaves it: at (0, 0), speed factor 0.5, no question, dead. */
  function NewShip(): Ship {
    Ship(Position(0.0, 0.0), DefaultShipSpeed, None, true)
  }

  /**
   * `getAnswer() == input`. A ship without a question answers "", which equals
   * only the empty input; the comparison of a numeric answer with the typed text
   * (JavaScript's loose equality) is the parameter `eq`.
   */
  predicate AnswerMatches(s: Ship, input: string, eq: (Answer, string) -> bool)
    ensures s.data.None? ==> (AnswerMatches(s, input, eq) <==> input == "")
    ensures s.data.Some? ==> (AnswerMatches(s, input, eq) <==> eq(s.data.value.answer, input))
  {
    match s.data
    case None => input == ""
    case Some(q) => eq(q.answer, input)
  }

  /** The ship after `n` calls of `update()`. */
  function ShipTicks(s: Ship, n: nat): Ship
    decreases n
  {
    if n == 0 then s else ShipTicks(s, n - 1).Update()
  }

  /** A live ship falls by exactly n * 0.5 * speed in n frames; a dead one stays put. */
  lemma {:induction false} ShipTicksLaw(s: Ship, n: nat)
    ensures ShipTicks(s, n).position.x == s.position.x
    ensures ShipTicks(s, n).speed == s.speed && ShipTicks(s, n).dead == s.dead
    ensures s.dead ==> ShipTicks(s, n) == s
    ensures !s.dead ==> ShipTicks(s, n).position.y == s.position.y + (n as real) * DefaultShipSpeed * s.speed
    decreases n
  {
    if n > 0 {
      ShipTicksLaw(s, n - 1);
    }
  }

  /** The typed answer. */
  datatype UserInput = UserInput(text: string) {

    /** `clear(all)`: everything, or only the last character (nothing for an empty buffer). */
    function Clear(all: bool): (r: UserInput)
      ensures all ==> r.text == ""
      ensures !all && text == "" ==> r.text == ""
      ensures !all && text != "" ==> r.text + [text[|text| - 1]] == text
    {
      if all then UserInput("")
      else if |text| == 0 then this
      else UserInput(text[..|text| - 1])
    }

    /** `add(key)`: appends the key's text verbatim. */
    function Add(key: string): (r: UserInput)
      ensures |r.text| == |text| + |key|
      ensures r.text[..|text|] == text && r.text[|text|..] == key
    {
      UserInput(text + key)
    }
  }

  /** Typing one character and deleting it again leaves the buffer as it was. */
  lemma AddThenClearLast(u: UserInput, c: char)
    ensures u.Add([c]).Clear(false) == u
  {
  }

  /** Score and remaining lives. */
  datatype Score = Score(score: int, lives: int) {

    /** `damage(n)`: no clamp, the lives may go below 0. */
    function Damage(n: int): (r: Score)
      ensures r.score == score && lives - r.lives == n
    {
      this.(lives := lives - n)
    }

    /** `addScore(n)`. */
    function AddScore(n: int): (r: Score)
      ensures r.lives == lives && r.score - score == n
    {
      this.(score := score + n)
    }
  }

  /** Damage and points add up: two calls are one call with the sum, and the two counters never interfere. */
  lemma ScoreLaws(s: Score, a: int, b: int)
    ensures s.Damage(a).Damage(b) == s.Damage(a + b)
    ensures s.AddScore(a).AddScore(b) == s.AddScore(a + b)
    ensures s.Damage(a).AddScore(b) == s.AddScore(b).Damage(a)
    ensures s.AddScore(a).AddScore(-a) == s
  {
  }

  function NewScore(): Score {
    Score(0, DefaultLives)
  }
}

=== FILE: game.dfy ===
/**
 * The `Game` class of `js/game.js`: a fixed pool of ten ships, the list of live
 * beams, the base, the score, the typed answer and the question generator.
 * Every step is a function from one game state to the next; random draws come
 * in as parameters, and the spawn interval and the animation-frame request are
 * two booleans.
 */
module GameController {
  import opened Options
  import opened JsMath
  import opened QuestionGenerator
  import opened Entities

  const PoolSize: nat := 10
  const SpawnMarginX: int := 50
  const SpawnY: real := -30.0
  const MissMarginY: int := 100
  const ScoreDivisor: real := 4.0

  /** The settings `Game` lays under the caller's before building its generator. */
  const GameDefaults := Settings(Some(20), None, Some(true), Some([Plus, Minus]))

  /** The `Math.random()` values one `_spawnShip` call consumes. */
  datatype SpawnDraws = SpawnDraws(op: real, first: real, second: real, x: real) {
    predicate Valid() {
      UnitDraw(op) && UnitDraw(first) && UnitDraw(second) && UnitDraw(x)
    }
  }

  /** The `Math.random()` values that aim a missed shot. */
  datatype MissDraws = MissDraws(x: real, y: real) {
    predicate Valid() {
      UnitDraw(x) && UnitDraw(y)
    }
  }

  datatype Game = Game(
    width: nat,
    height: nat,
    ships: seq<Ship>,
    beams: seq<Beam>,
    base: Base,
    score: Score,
    input: UserInput,
    generator: Config,
    paused: bool,
    spawnTimer: bool,      // the spawn interval has not been cleared
    frameScheduled: bool)  // an animation frame will call `run()` again

  /** A beam that may stay in the list: active, with 1 to 20 frames left. */
  predicate LiveBeam(b: Beam) {
    b.active && 1 <= b.durability <= DefaultBeamLife
  }

  predicate LiveBeams(bs: seq<Beam>) {
    forall i :: 0 <= i < |bs| ==> LiveBeam(bs[i])
  }

  /**
   * What every reachable game keeps: ten ships, only live beams in the list, a
   * shield count that is not negative, and a speed factor of at least 1.0 on
   * every live ship.
   */
  predicate Valid(g: Game) {
    && |g.ships| == PoolSize
    && LiveBeams(g.beams)
    && g.base.shields >= 0
    && forall i :: 0 <= i < |g.ships| && !g.ships[i].dead ==> g.ships[i].speed >= MinShipSpeedFactor
  }

  /** The constructor on a canvas of the given size; `settings` None stands for `null`. */
  function NewGame(width: nat, height: nat, settings: Option<Settings>): (g: Game)
    ensures Valid(g)
    ensures forall i :: 0 <= i < |g.ships| ==> g.ships[i].dead && g.ships[i].data.None?
    ensures g.beams == [] && g.score == Score(0, 3) && g.base.shields == 2 && g.input.text == ""
    ensures !g.paused && g.spawnTimer && !g.frameScheduled
  {
    Game(width, height,
      seq(PoolSize, _ => NewShip()),
      [],
      NewBase(Position((width as real) / 2.0, height as real)),
      NewScore(),
      UserInput(""),
      Configure(Some(Overlay(GameDefaults, settings.GetOr(NoSettings)))),
      false, true, false)
  }

  /** Without settings the game's own defaults (maxNumber 20) beat the generator's (maxNumber 10). */
  lemma NewGameGenerator(width: nat, height: nat, settings: Option<Settings>)
    ensures var c := NewGame(width, height, settings).generator;
      var s := settings.GetOr(NoSettings);
      && c.maxNumber == s.maxNumber.GetOr(20)
      && c.negativeNumbers == s.negativeNumbers.GetOr(false)
      && c.wholeNumbers == s.wholeNumbers.GetOr(true)
      && c.operators == s.operators.GetOr([Plus, Minus])
  {
  }

  // ---------------------------------------------------------------------------
  // Linear search over the ship pool

  /** The first index whose element satisfies `p`. */
  function FirstWhere<T>(s: seq<T>, p: T -> bool): (r: Option<nat>)
    ensures r.Some? ==> r.value < |s| && p(s[r.value])
    ensures r.Some? ==> forall j :: 0 <= j < r.value ==> !p(s[j])
    ensures r.None? ==> forall j :: 0 <= j < |s| ==> !p(s[j])
    decreases |s|
  {
    if |s| == 0 then None
    else if p(s[0]) then Some(0)
    else
      match FirstWhere(s[1..], p)
      case None => None
      case Some(i) => Some(i + 1)
  }

  /** Number of live ships. */
  function LiveCount(ships: seq<Ship>): (n: nat)
    ensures n <= |ships|
    decreases |ships|
  {
    if |ships| == 0 then 0 else (if ships[0].dead then 0 else 1) + LiveCount(ships[1..])
  }

  /** Replacing one ship changes the live count by the difference of the two ships. */
  lemma {:induction false} LiveCountUpdate(ships: seq<Ship>, i: nat, x: Ship)
    requires i < |ships|
    ensures LiveCount(ships[i := x]) + (if ships[i].dead then 0 else 1)
         == LiveCount(ships) + (if x.dead then 0 else 1)
    decreases i
  {
    if i == 0 {
      assert ships[i := x][1..] == ships[1..];
    } else {
      assert ships[i := x][1..] == ships[1..][i - 1 := x];
      LiveCountUpdate(ships[1..], i - 1, x);
    }
  }

  /** The pool is full exactly when no ship is dead. */
  lemma {:induction false} LiveCountFull(ships: seq<Ship>)
    ensures LiveCount(ships) == |ships| <==> forall i :: 0 <= i < |ships| ==> !ships[i].dead
    decreases |ships|
  {
    if |ships| > 0 {
      LiveCountFull(ships[1..]);
      assert forall i :: 1 <= i < |ships| ==> ships[i] == ships[1..][i - 1];
    }
  }

  // ---------------------------------------------------------------------------
  // _spawnShip

  /** The speed factor a respawned ship is given: round(score / 1000) * 1.1, before the clamp. */
  function SpeedForScore(score: int): (r: real)
    ensures -500 <= score < 500 ==> r == 0.0
    ensures score >= 500 ==> r >= DefaultSpeedupFactor
    ensures score < -500 ==> r <= -DefaultSpeedupFactor
  {
    (Round((score as real) / (DefaultSpeedupScore as real)) as real) * DefaultSpeedupFactor
  }

  /** The spawn speed never drops as the score grows. */
  lemma SpeedForScoreMonotone(a: int, b: int)
    requires a <= b
    ensures SpeedForScore(a) <= SpeedForScore(b)
  {
    assert Round((a as real) / 1000.0) <= Round((b as real) / 1000.0);
  }

  /** The spawn column: `50 + Math.round(Math.random() * (width - 100))`. */
  function SpawnX(width: nat, u: real): (x: int)
    requires UnitDraw(u)
    ensures width >= 100 ==> SpawnMarginX <= x <= width - SpawnMarginX
    ensures width < 100 ==> width - SpawnMarginX <= x <= SpawnMarginX
  {
    RoundDrawBounds(u, width - 2 * SpawnMarginX);
    SpawnMarginX + Round(u * ((width - 2 * SpawnMarginX) as real))
  }

  /**
   * `_spawnShip()`: the first dead ship in pool order gets a new question, moves
   * to the top and comes back to life with a score-dependent speed; with no dead
   * ship nothing changes.
   */
  function SpawnShip(g: Game, d: SpawnDraws): (r: Game)
    requires d.Valid()
    ensures (forall i :: 0 <= i < |g.ships| ==> !g.ships[i].dead) ==> r == g
    ensures |r.ships| == |g.ships| && r == g.(ships := r.ships)
    ensures Valid(g) ==> Valid(r)
  {
    match FirstWhere(g.ships, (s: Ship) => s.dead)
    case None => g
    case Some(i) => g.(ships := g.ships[i := Respawned(g, d, g.ships[i])])
  }

  /** A dead ship refilled by `_spawnShip`. */
  function Respawned(g: Game, d: SpawnDraws, ship: Ship): (r: Ship)
    requires d.Valid()
    ensures !r.dead && r.speed >= MinShipSpeedFactor
  {
    ship
      .(data := Some(Generate(g.generator, d.op, d.first, d.second)))
      .(position := Position(SpawnX(g.width, d.x) as real, SpawnY))
      .SetSpeed(SpeedForScore(g.score.score))
      .Revive()
  }

  /**
   * The ship a spawn revives is the first dead one in pool order: it comes back
   * with a new question, at y = -30 and a column 50 in from either edge, with
   * speed factor max(1.0, round(score / 1000) * 1.1); every other ship is left as it was.
   */
  lemma SpawnRevivesFirstDead(g: Game, d: SpawnDraws, i: nat)
    requires d.Valid()
    requires i < |g.ships| && g.ships[i].dead
    requires forall j :: 0 <= j < i ==> !g.ships[j].dead
    ensures var r := SpawnShip(g, d).ships;
      && !r[i].dead
      && r[i].position == Position(SpawnX(g.width, d.x) as real, SpawnY)
      && r[i].speed == MaxReal(MinShipSpeedFactor, SpeedForScore(g.score.score))
      && r[i].data == Some(Generate(g.generator, d.op, d.first, d.second))
      && forall j :: 0 <= j < |g.ships| && j != i ==> r[j] == g.ships[j]
  {
  }

  /** A spawn adds exactly one live ship while the pool has a dead one, and none once it is full. */
  lemma SpawnLiveCount(g: Game, d: SpawnDraws)
    requires d.Valid()
    ensures LiveCount(g.ships) < |g.ships| ==> LiveCount(SpawnShip(g, d).ships) == LiveCount(g.ships) + 1
    ensures LiveCount(g.ships) == |g.ships| ==> SpawnShip(g, d) == g
  {
    LiveCountFull(g.ships);
    var r := SpawnShip(g, d);
    match FirstWhere(g.ships, (s: Ship) => s.dead)
    case None =>
    case Some(i) =>
      assert r.ships == g.ships[i := r.ships[i]];
      LiveCountUpdate(g.ships, i, r.ships[i]);
  }

  /** Several spawn-timer ticks in a row. */
  function SpawnMany(g: Game, ds: seq<SpawnDraws>): Game
    requires forall k :: 0 <= k < |ds| ==> ds[k].Valid()
    decreases |ds|
  {
    if |ds| == 0 then g else SpawnMany(SpawnShip(g, ds[0]), ds[1..])
  }

  /** n spawns bring n more ships to life, until the pool is full. */
  lemma {:induction false} SpawnManyLiveCount(g: Game, ds: seq<SpawnDraws>)
    requires forall k :: 0 <= k < |ds| ==> ds[k].Valid()
    ensures |SpawnMany(g, ds).ships| == |g.ships|
    ensures LiveCount(SpawnMany(g, ds).ships) == MinInt(LiveCount(g.ships) + |ds|, |g.ships|)
    decreases |ds|
  {
    if |ds| > 0 {
      var next := SpawnShip(g, ds[0]);
      SpawnLiveCount(g, ds[0]);
      assert |next.ships| == |g.ships|;
      assert forall k :: 0 <= k < |ds[1..]| ==> ds[1..][k].Valid();
      SpawnManyLiveCount(next, ds[1..]);
      assert SpawnMany(g, ds) == SpawnMany(next, ds[1..]);
    }
  }

  function MinInt(a: int, b: int): int {
    if a < b then a else b
  }

  /** As many spawns as the pool has dead ships fill it, after which a spawn changes nothing. */
  lemma SpawnsFillPool(g: Game, ds: seq<SpawnDraws>, d: SpawnDraws)
    requires LiveCount(g.ships) + |ds| >= |g.ships| && d.Valid()
    requires forall k :: 0 <= k < |ds| ==> ds[k].Valid()
    ensures forall i :: 0 <= i < |SpawnMany(g, ds).ships| ==> !SpawnMany(g, ds).ships[i].dead
    ensures SpawnShip(SpawnMany(g, ds), d) == SpawnMany(g, ds)
  {
    SpawnManyLiveCount(g, ds);
    var full := SpawnMany(g, ds);
    assert LiveCount(full.ships) == |full.ships|;
    LiveCountFull(full.ships);
    SpawnLiveCount(full, d);
  }

  /** On a new game, ten spawns bring all ten ships to life and an eleventh changes nothing. */
  lemma TenSpawnsFillPool(width: nat, height: nat, settings: Option<Settings>, ds: seq<SpawnDraws>, d: SpawnDraws)
    requires |ds| == PoolSize && d.Valid()
    requires forall k :: 0 <= k < |ds| ==> ds[k].Valid()
    ensures |SpawnMany(NewGame(width, height, settings), ds).ships| == PoolSize
    ensures forall i :: 0 <= i < PoolSize ==> !SpawnMany(NewGame(width, height, settings), ds).ships[i].dead
    ensures SpawnShip(SpawnMany(NewGame(width, height, settings), ds), d) == SpawnMany(NewGame(width, height, settings), ds)
  {
    EmptyPoolFills(NewGame(width, height, settings), ds, d);
  }

  lemma EmptyPoolFills(g: Game, ds: seq<SpawnDraws>, d: SpawnDraws)
    requires |ds| == |g.ships| && d.Valid()
    requires forall k :: 0 <= k < |ds| ==> ds[k].Valid()
    requires forall i :: 0 <= i < |g.ships| ==> g.ships[i].dead
    ensures |SpawnMany(g, ds).ships| == |g.ships|
    ensures forall i :: 0 <= i < |SpawnMany(g, ds).ships| ==> !SpawnMany(g, ds).ships[i].dead
    ensures SpawnShip(SpawnMany(g, ds), d) == SpawnMany(g, ds)
  {
    NoLiveShips(g.ships);
    SpawnManyLiveCount(g, ds);
    SpawnsFillPool(g, ds, d);
  }

  lemma {:induction false} NoLiveShips(ships: seq<Ship>)
    requires forall i :: 0 <= i < |ships| ==> ships[i].dead
    ensures LiveCount(ships) == 0
    decreases |ships|
  {
    if |ships| > 0 {
      NoLiveShips(ships[1..]);
    }
  }

  // ---------------------------------------------------------------------------
  // _processAnswer

  /** Where a missed shot lands: `(round(random * width), round(random * (height - 100)))`. */
  function MissTarget(g: Game, m: MissDraws): (p: Position)
    requires m.Valid()
    ensures 0.0 <= p.x <= g.width as real
    ensures g.height >= MissMarginY ==> 0.0 <= p.y <= (g.height - MissMarginY) as real
    ensures g.height < MissMarginY ==> (g.height - MissMarginY) as real <= p.y <= 0.0
  {
    RoundDrawBounds(m.x, g.width);
    RoundDrawBounds(m.y, g.height - MissMarginY);
    var x := Round(m.x * (g.width as real));
    var y := Round(m.y * ((g.height - MissMarginY) as real));
    assert 0 <= x <= g.width;
    assert g.height >= MissMarginY ==> 0 <= y <= g.height - MissMarginY;
    assert g.height < MissMarginY ==> g.height - MissMarginY <= y <= 0;
    Position(x as real, y as real)
  }

  /** Points for shooting a ship at height y: `Math.round((height - y) / 4)`. */
  function HitScore(height: nat, y: real): (r: int)
    ensures y <= height as real ==> r >= 0
    ensures y > (height as real) + 2.0 ==> r < 0
    ensures (r as real) - 0.5 <= ((height as real) - y) / ScoreDivisor < (r as real) + 0.5
  {
    Round(((height as real) - y) / ScoreDivisor)
  }

  /**
   * `_processAnswer()`: the first ship in pool order whose answer equals the
   * input, dead or alive, is shot, killed and scored; with no such ship the
   * shot goes to a random point. Either way exactly one beam is fired and the
   * input is cleared.
   */
  function ProcessAnswer(g: Game, eq: (Answer, string) -> bool, m: MissDraws): (r: Game)
    requires m.Valid()
    ensures |r.beams| == |g.beams| + 1 && r.beams[..|g.beams|] == g.beams
    ensures r.beams[|g.beams|].start == g.base.position
    ensures r.beams[|g.beams|].active && r.beams[|g.beams|].durability == DefaultBeamLife
    ensures r.input.text == "" && r.score.lives == g.score.lives && |r.ships| == |g.ships|
    ensures r == g.(ships := r.ships, beams := r.beams, score := r.score, input := r.input)
    ensures forall i :: (0 <= i < |g.ships| && AnswerMatches(g.ships[i], g.input.text, eq)
                     && (forall j :: 0 <= j < i ==> !AnswerMatches(g.ships[j], g.input.text, eq))) ==>
      && r.ships == g.ships[i := g.ships[i].Kill()]
      && r.beams[|g.beams|].end == g.ships[i].position
      && r.score.score == g.score.score + HitScore(g.height, g.ships[i].position.y)
    ensures (forall i :: 0 <= i < |g.ships| ==> !AnswerMatches(g.ships[i], g.input.text, eq)) ==>
      && r.ships == g.ships
      && r.score == g.score
      && r.beams[|g.beams|].end == MissTarget(g, m)
    ensures Valid(g) ==> Valid(r)
  {
    match FirstWhere(g.ships, (s: Ship) => AnswerMatches(s, g.input.text, eq))
    case Some(i) =>
      var ship := g.ships[i];
      g.(beams := g.beams + [NewBeam(g.base.position, ship.position)],
         ships := g.ships[i := ship.Kill()],
         score := g.score.AddScore(HitScore(g.height, ship.position.y)),
         input := g.input.Clear(true))
    case None =>
      g.(beams := g.beams + [NewBeam(g.base.position, MissTarget(g, m))],
         input := g.input.Clear(true))
  }

  /** A submission changes at most one ship, and can only lower the live count by one. */
  lemma AtMostOneKill(g: Game, eq: (Answer, string) -> bool, m: MissDraws)
    requires m.Valid()
    ensures var r := ProcessAnswer(g, eq, m);
      forall i, j :: 0 <= i < j < |g.ships| && r.ships[i] != g.ships[i] ==> r.ships[j] == g.ships[j]
    ensures LiveCount(ProcessAnswer(g, eq, m).ships) + 1 >= LiveCount(g.ships)
  {
    var r := ProcessAnswer(g, eq, m);
    match FirstWhere(g.ships, (s: Ship) => AnswerMatches(s, g.input.text, eq))
    case None =>
    case Some(i) =>
      LiveCountUpdate(g.ships, i, g.ships[i].Kill());
  }

  /**
   * Dead ships are not skipped: when the first ship whose answer matches is a
   * dead one, it takes the shot, no ship changes, and a live ship further on
   * with the same answer survives.
   */
  lemma DeadShipShadowsLiveShip(g: Game, eq: (Answer, string) -> bool, m: MissDraws, i: nat, k: nat)
    requires m.Valid()
    requires i < k < |g.ships|
    requires g.ships[i].dead && !g.ships[k].dead
    requires AnswerMatches(g.ships[i], g.input.text, eq) && AnswerMatches(g.ships[k], g.input.text, eq)
    requires forall j :: 0 <= j < i ==> !AnswerMatches(g.ships[j], g.input.text, eq)
    ensures ProcessAnswer(g, eq, m).ships == g.ships
    ensures !ProcessAnswer(g, eq, m).ships[k].dead
  {
  }

  // ---------------------------------------------------------------------------
  // pause and _handleInput

  /** `pause()`: toggles the flag; pausing clears the spawn interval, resuming does not restore it. */
  function Pause(g: Game): (r: Game)
    ensures r.paused == !g.paused
    ensures r.spawnTimer <==> g.spawnTimer && g.paused
    ensures r == g.(paused := r.paused, spawnTimer := r.spawnTimer)
  {
    var paused := !g.paused;
    g.(paused := paused, spawnTimer := if paused then false else g.spawnTimer)
  }

  /** Key names that do not add to the typed answer. */
  predicate IsControlKey(key: string) {
    key in ["Enter", "Backspace", "Escape", "Shift", "Control", "Alt"]
  }

  /**
   * `_handleInput(e)`: Enter submits, Backspace deletes one character, Escape
   * empties the input and toggles pause, Shift, Control and Alt are ignored,
   * and every other key name is appended whole.
   */
  function HandleKey(g: Game, key: string, eq: (Answer, string) -> bool, m: MissDraws): (r: Game)
    requires m.Valid()
    ensures key == "Enter" ==> r == ProcessAnswer(g, eq, m)
    ensures key == "Backspace" ==> r == g.(input := g.input.Clear(false))
    ensures key == "Escape" ==> r == Pause(g).(input := UserInput(""))
    ensures key in ["Shift", "Control", "Alt"] ==> r == g
    ensures !IsControlKey(key) ==> r == g.(input := UserInput(g.input.text + key))
    ensures Valid(g) ==> Valid(r)
  {
    if key == "Enter" then ProcessAnswer(g, eq, m)
    else if key == "Backspace" then g.(input := g.input.Clear(false))
    else if key == "Escape" then Pause(g.(input := g.input.Clear(true)))
    else if key != "Shift" && key != "Control" && key != "Alt" then g.(input := g.input.Add(key))
    else g
  }

  /** Typing any single character and then Backspace leaves the game as it was. */
  lemma TypeThenBackspace(g: Game, c: char, eq: (Answer, string) -> bool, m: MissDraws)
    requires m.Valid()
    ensures HandleKey(HandleKey(g, [c], eq, m), "Backspace", eq, m) == g
  {
  }

  /**
   * On a new game every ship is unspawned and answers "", so Enter on the empty
   * input shoots ship 0 at y = 0 and scores round(height / 4).
   */
  lemma FreshGameEmptyEnterScores(width: nat, height: nat, settings: Option<Settings>,
                                  eq: (Answer, string) -> bool, m: MissDraws)
    requires m.Valid()
    ensures var r := HandleKey(NewGame(width, height, settings), "Enter", eq, m);
      r.score.score == Round((height as real) / 4.0) && r.ships[0].dead && |r.beams| == 1
  {
  }

  // ---------------------------------------------------------------------------
  // update: ships, beams, collisions

  function AdvanceShips(ships: seq<Ship>): (r: seq<Ship>)
    ensures |r| == |ships|
    ensures forall i :: 0 <= i < |ships| ==> r[i] == ships[i].Update()
  {
    seq(|ships|, i requires 0 <= i < |ships| => ships[i].Update())
  }

  /**
   * The beam loop of `update()`: each visited beam is updated and spliced out
   * when it goes inactive; because the index still advances after a splice,
   * the beam that moves into the removed one's place is skipped this frame.
   */
  function PruneBeams(bs: seq<Beam>): (r: seq<Beam>)
    ensures |r| <= |bs|
    decreases |bs|
  {
    if |bs| == 0 then []
    else
      var b := bs[0].Update();
      if b.active then [b] + PruneBeams(bs[1..])
      else if |bs| == 1 then []
      else [bs[1]] + PruneBeams(bs[2..])
  }

  /** The loop itself, with JavaScript's index and `splice`. */
  method UpdateBeams(beams: seq<Beam>) returns (r: seq<Beam>)
    ensures r == PruneBeams(beams)
  {
    r := beams;
    var i := 0;
    while i < |r|
      invariant i <= |r| + 1
      invariant i <= |r| ==> PruneBeams(beams) == r[..i] + PruneBeams(r[i..])
      invariant i == |r| + 1 ==> PruneBeams(beams) == r
      decreases |r| + 1 - i
    {
      var beam := r[i].Update();
      if !beam.active {
        PruneRemovedAt(r, i);
        r := r[..i] + r[i + 1..];
      } else {
        PruneActiveAt(r, i);
        r := r[i := beam];
      }
      i := i + 1;
    }
  }

  /** Updating the beam at i in place advances the pass by one beam. */
  lemma PruneActiveAt(r: seq<Beam>, i: nat)
    requires i < |r| && r[i].Update().active
    ensures r[..i] + PruneBeams(r[i..])
         == r[i := r[i].Update()][..i + 1] + PruneBeams(r[i := r[i].Update()][i + 1..])
  {
    var u := r[i].Update();
    assert r[i..][1..] == r[i + 1..];
    assert r[i := u][..i + 1] == r[..i] + [u];
    assert r[i := u][i + 1..] == r[i + 1..];
  }

  /**
   * Splicing out the beam at i also moves the pass past the beam that slides
   * into its place, unless it was the last one.
   */
  lemma PruneRemovedAt(r: seq<Beam>, i: nat)
    requires i < |r| && !r[i].Update().active
    ensures i + 1 == |r| ==> r[..i] + PruneBeams(r[i..]) == r[..i] + r[i + 1..]
    ensures i + 1 < |r| ==>
      (r[..i] + PruneBeams(r[i..])
       == (r[..i] + r[i + 1..])[..i + 1] + PruneBeams((r[..i] + r[i + 1..])[i + 1..]))
  {
    var s := r[..i] + r[i + 1..];
    if i + 1 < |r| {
      assert r[i..][2..] == r[i + 2..];
      assert s[..i + 1] == r[..i] + [r[i + 1]];
      assert s[i + 1..] == r[i + 2..];
    } else {
      assert r[i + 1..] == [];
    }
  }

  /** After the beam pass only live beams remain, given that only live beams were there. */
  lemma {:induction false} PruneKeepsLiveBeams(bs: seq<Beam>)
    ensures LiveBeams(bs) ==> LiveBeams(PruneBeams(bs))
    decreases |bs|
  {
    if |bs| > 0 && LiveBeams(bs) {
      var b := bs[0].Update();
      if b.active {
        PruneKeepsLiveBeams(bs[1..]);
      } else if |bs| > 1 {
        assert LiveBeam(bs[1]);
        PruneKeepsLiveBeams(bs[2..]);
      }
    }
  }

  /** `x` is beam `b`, possibly one frame older. */
  predicate SameBeam(x: Beam, b: Beam) {
    x.start == b.start && x.end == b.end && b.durability - 1 <= x.durability <= b.durability
  }

  /** `r` is a subsequence of `bs`, element by element the same beams, in the same order. */
  predicate Embeds(r: seq<Beam>, bs: seq<Beam>)
    decreases |bs|
  {
    if |r| == 0 then true
    else if |bs| == 0 then false
    else (SameBeam(r[0], bs[0]) && Embeds(r[1..], bs[1..])) || Embeds(r, bs[1..])
  }

  /** The surviving beams keep their relative order. */
  lemma {:induction false} PruneKeepsOrder(bs: seq<Beam>)
    ensures Embeds(PruneBeams(bs), bs)
    decreases |bs|
  {
    if |bs| > 0 {
      var b := bs[0].Update();
      var r := PruneBeams(bs);
      if b.active {
        PruneKeepsOrder(bs[1..]);
        assert r[1..] == PruneBeams(bs[1..]);
      } else if |bs| > 1 {
        PruneKeepsOrder(bs[2..]);
        assert r[1..] == PruneBeams(bs[2..]);
        assert bs[1..][1..] == bs[2..];
        assert Embeds(r, bs[1..]);
      }
    }
  }

  /** While no beam is about to go out, the pass keeps every beam, each one frame older, in order. */
  lemma {:induction false} PruneNoExpiry(bs: seq<Beam>)
    requires forall k :: 0 <= k < |bs| ==> bs[k].active && bs[k].durability >= 2
    ensures PruneBeams(bs) == seq(|bs|, k requires 0 <= k < |bs| => bs[k].Update())
    decreases |bs|
  {
    if |bs| > 0 {
      PruneNoExpiry(bs[1..]);
    }
  }

  /** Number of beams whose own update would take them out. */
  function Expiring(bs: seq<Beam>): (n: nat)
    ensures n <= |bs|
    decreases |bs|
  {
    if |bs| == 0 then 0 else (if bs[0].Update().active then 0 else 1) + Expiring(bs[1..])
  }

  /**
   * The pass shortens the list by at most the number of beams whose own update
   * takes them out (fewer when a removal skips an expiring neighbour).
   */
  lemma {:induction false} PruneRemovesAtMostExpiring(bs: seq<Beam>)
    ensures |PruneBeams(bs)| + Expiring(bs) >= |bs|
    decreases |bs|
  {
    if |bs| > 0 {
      if bs[0].Update().active {
        PruneRemovesAtMostExpiring(bs[1..]);
      } else if |bs| > 1 {
        PruneRemovesAtMostExpiring(bs[2..]);
        assert bs[1..][1..] == bs[2..];
        assert Expiring(bs[1..]) >= Expiring(bs[2..]);
      }
    }
  }

  /**
   * A beam that survives its own update is still in the list after the pass,
   * updated or, when it followed a removed beam, as it was.
   */
  lemma {:induction false} PruneKeepsSurvivors(bs: seq<Beam>, k: nat)
    requires k < |bs| && bs[k].Update().active
    ensures bs[k].Update() in PruneBeams(bs) || bs[k] in PruneBeams(bs)
    decreases |bs|
  {
    if k > 0 {
      if bs[0].Update().active {
        PruneKeepsSurvivors(bs[1..], k - 1);
      } else if k > 1 {
        PruneKeepsSurvivors(bs[2..], k - 2);
      }
    }
  }

  /**
   * A surviving beam that does not follow a removed one is aged by the pass: its
   * updated form is in the list.
   */
  lemma {:induction false} VisitedSurvivorIsUpdated(bs: seq<Beam>, k: nat)
    requires k < |bs| && bs[k].Update().active
    requires k == 0 || bs[k - 1].Update().active
    ensures bs[k].Update() in PruneBeams(bs)
    decreases |bs|
  {
    if k > 0 {
      if bs[0].Update().active {
        VisitedSurvivorIsUpdated(bs[1..], k - 1);
      } else {
        VisitedSurvivorIsUpdated(bs[2..], k - 2);
      }
    }
  }

  /** When the first beam goes out, the second is kept as it was, not decremented. */
  lemma SpliceSkipsNext(bs: seq<Beam>)
    requires |bs| >= 2 && !bs[0].Update().active
    ensures PruneBeams(bs)[0] == bs[1]
  {
  }

  /**
   * The same anywhere in the list: when the pass reaches a beam that goes out,
   * the beam after it is kept as it was. The beam before the removed one must
   * itself stay, so that the pass does not skip the removed one.
   */
  lemma {:induction false} SpliceSkipsNextAt(bs: seq<Beam>, k: nat)
    requires 1 <= k < |bs| && !bs[k - 1].Update().active
    requires k == 1 || bs[k - 2].Update().active
    ensures bs[k] in PruneBeams(bs)
    decreases |bs|
  {
    if k > 1 {
      if bs[0].Update().active {
        SpliceSkipsNextAt(bs[1..], k - 1);
      } else {
        SpliceSkipsNextAt(bs[2..], k - 2);
      }
    }
  }

  /** For instance two beams with one frame left: the first goes, the second stays a frame longer. */
  lemma SpliceSkipsNextExample(p: Position, q: Position)
    ensures PruneBeams([Beam(p, q, 1, true), Beam(q, p, 1, true)]) == [Beam(q, p, 1, true)]
  {
  }

  /** A live ship at or below the bottom edge of the canvas. */
  predicate Breached(s: Ship, height: nat) {
    !s.dead && s.position.y >= height as real
  }

  function CollideShip(s: Ship, height: nat): Ship {
    if Breached(s, height) then s.Kill() else s
  }

  function CountBreached(ships: seq<Ship>, height: nat): (n: nat)
    ensures n <= |ships|
    decreases |ships|
  {
    if |ships| == 0 then 0
    else CountBreached(ships[..|ships| - 1], height) + (if Breached(ships[|ships| - 1], height) then 1 else 0)
  }

  /** `removeShield()` called k times. */
  function RemoveShields(b: Base, k: nat): Base
    decreases k
  {
    if k == 0 then b else RemoveShields(b, k - 1).RemoveShield(1)
  }

  /** k single removals leave max(shields - k, 0) shields (any removal lifts a negative count to 0). */
  lemma {:induction false} RemoveShieldsLaw(b: Base, k: nat)
    ensures RemoveShields(b, k).position == b.position
    ensures RemoveShields(b, k).shields == if k == 0 then b.shields else MaxInt(b.shields - k, 0)
    decreases k
  {
    if k > 0 {
      RemoveShieldsLaw(b, k - 1);
    }
  }

  /**
   * `_checkCollision()`: every live ship at or below the bottom edge dies and
   * costs one life and one shield; dead ships and ships above the edge are
   * untouched. Lives are not clamped.
   */
  function CollideAll(g: Game): (r: Game)
    ensures |r.ships| == |g.ships|
    ensures forall i :: 0 <= i < |g.ships| && Breached(g.ships[i], g.height) ==>
      r.ships[i].dead && r.ships[i] == g.ships[i].(dead := true)
    ensures forall i :: 0 <= i < |g.ships| && !Breached(g.ships[i], g.height) ==> r.ships[i] == g.ships[i]
    ensures var k := CountBreached(g.ships, g.height);
      && r.score.score == g.score.score
      && r.score.lives == g.score.lives - k
      && r.base.position == g.base.position
      && r.base.shields == (if k == 0 then g.base.shields else MaxInt(g.base.shields - k, 0))
    ensures r == g.(ships := r.ships, score := r.score, base := r.base)
  {
    var k := CountBreached(g.ships, g.height);
    RemoveShieldsLaw(g.base, k);
    g.(ships := seq(|g.ships|, i requires 0 <= i < |g.ships| => CollideShip(g.ships[i], g.height)),
       score := g.score.Damage(k),
       base := RemoveShields(g.base, k))
  }

  /** The collision loop, ship by ship. */
  method CheckCollision(g: Game) returns (r: Game)
    ensures r == CollideAll(g)
  {
    var ships := g.ships;
    var score := g.score;
    var base := g.base;
    var i := 0;
    while i < |g.ships|
      invariant 0 <= i <= |g.ships|
      invariant |ships| == |g.ships|
      invariant forall j :: 0 <= j < i ==> ships[j] == CollideShip(g.ships[j], g.height)
      invariant forall j :: i <= j < |g.ships| ==> ships[j] == g.ships[j]
      invariant score == g.score.Damage(CountBreached(g.ships[..i], g.height))
      invariant base == RemoveShields(g.base, CountBreached(g.ships[..i], g.height))
    {
      var ship := ships[i];
      assert CountBreached(g.ships[..i + 1], g.height)
          == CountBreached(g.ships[..i], g.height) + (if Breached(ship, g.height) then 1 else 0) by {
        assert g.ships[..i + 1][..i] == g.ships[..i];
      }
      if ship.position.y >= g.height as real {
        if !ship.dead {
          ships := ships[i := ship.Kill()];
          score := score.Damage(1);
          base := base.RemoveShield(1);
        }
      }
      i := i + 1;
    }
    assert g.ships[..|g.ships|] == g.ships;
    r := g.(ships := ships, score := score, base := base);
    assert r.ships == CollideAll(g).ships;
  }

  /** `update()`: advance the ships, run the beam loop, then check collisions. */
  function Step(g: Game): (r: Game)
    ensures r.beams == PruneBeams(g.beams)
    ensures |r.ships| == |g.ships|
    ensures forall i :: 0 <= i < |g.ships| ==> r.ships[i] == CollideShip(g.ships[i].Update(), g.height)
    ensures r.score.lives == g.score.lives - CountBreached(AdvanceShips(g.ships), g.height)
    ensures var k := CountBreached(AdvanceShips(g.ships), g.height);
      && r.score.score == g.score.score
      && r.base.position == g.base.position
      && r.base.shields == (if k == 0 then g.base.shields else MaxInt(g.base.shields - k, 0))
    ensures r == g.(ships := r.ships, beams := r.beams, score := r.score, base := r.base)
    ensures Valid(g) ==> Valid(r)
  {
    PruneKeepsLiveBeams(g.beams);
    CollideAll(g.(ships := AdvanceShips(g.ships), beams := PruneBeams(g.beams)))
  }

  /**
   * `run()`: one frame, then the next frame is requested only while the game is
   * neither paused nor out of lives; running out of lives also clears the spawn
   * interval.
   */
  function RunFrame(g: Game): (r: Game)
    ensures r == Step(g).(frameScheduled := r.frameScheduled, spawnTimer := r.spawnTimer)
    ensures r.frameScheduled <==> !g.paused && r.score.lives > 0
    ensures r.spawnTimer <==> g.spawnTimer && (g.paused || r.score.lives > 0)
    ensures Valid(g) ==> Valid(r)
  {
    var s := Step(g);
    if s.paused then s.(frameScheduled := false)
    else if s.score.lives > 0 then s.(frameScheduled := true)
    else s.(frameScheduled := false, spawnTimer := false)
  }

  // ---------------------------------------------------------------------------
  // Scheduling

  /** Once the spawn interval is cleared, no step of the game creates it again. */
  lemma SpawnTimerNeverRestarts(g: Game, d: SpawnDraws, key: string, eq: (Answer, string) -> bool, m: MissDraws)
    requires d.Valid() && m.Valid() && !g.spawnTimer
    ensures !SpawnShip(g, d).spawnTimer
    ensures !HandleKey(g, key, eq, m).spawnTimer
    ensures !Pause(g).spawnTimer
    ensures !RunFrame(g).spawnTimer
  {
  }

  /**
   * Escape twice before the pending frame runs: that frame sees an unpaused
   * game and, with lives left, requests the next one.
   */
  lemma QuickResumeKeepsRunning(g: Game, eq: (Answer, string) -> bool, m: MissDraws)
    requires m.Valid() && !g.paused && g.frameScheduled
    ensures var r := HandleKey(HandleKey(g, "Escape", eq, m), "Escape", eq, m);
      && !r.paused && r.frameScheduled && !r.spawnTimer
      && (RunFrame(r).score.lives > 0 ==> RunFrame(r).frameScheduled)
  {
  }

  /**
   * Escape, the frame that sees the pause, and Escape again leave the game
   * unpaused but frozen: no frame is requested and no ship will spawn.
   */
  lemma ResumeDoesNotRestart(g: Game, eq: (Answer, string) -> bool, m: MissDraws)
    requires m.Valid() && !g.paused
    ensures var r := HandleKey(RunFrame(HandleKey(g, "Escape", eq, m)), "Escape", eq, m);
      !r.paused && !r.frameScheduled && !r.spawnTimer
  {
  }
}

=== FILE: jsmath.dfy ===
/** The pieces of JavaScript's `Math` that the game relies on. */
module JsMath {

  /** A value of `Math.random()`: a real in [0, 1). */
  predicate UnitDraw(u: real) {
    0.0 <= u < 1.0
  }

  /** `Math.round`: rounds to the nearest integer, halves towards +infinity. */
  function Round(x: real): (r: int)
    ensures x - 0.5 < r as real <= x + 0.5
  {
    (x + 0.5).Floor
  }

  function MaxReal(a: real, b: real): real {
    if a < b then b else a
  }

  function MaxInt(a: int, b: int): int {
    if a < b then b else a
  }

  /** `Math.round(Math.random() * n)` lies between 0 and n, whichever sign n has. */
  lemma RoundDrawBounds(u: real, n: int)
    requires UnitDraw(u)
    ensures n >= 0 ==> 0 <= Round(u * (n as real)) <= n
    ensures n <= 0 ==> n <= Round(u * (n as real)) <= 0
  {
    var x := u * (n as real);
    if n >= 0 {
      assert 0.0 <= x;
      assert (n as real) - x == (1.0 - u) * (n as real);
      assert x <= n as real;
    } else {
      assert x <= 0.0;
      assert x - (n as real) == (1.0 - u) * (-(n as real));
      assert (n as real) <= x;
    }
  }
}

=== FILE: options.dfy ===
/** The Some/None datatype used wherever the game holds `null` or may find nothing. */
module Options {

  datatype Option<+T> = None | Some(value: T) {

    /** The wrapped value, or `default` when there is none (JavaScript's `x ? x : default`). */
    function GetOr(default: T): T {
      match this
      case Some(v) => v
      case None => default
    }
  }
}

=== FILE: question_generator.dfy ===
/**
 * `BasicMathGenerator`: draws an operator and two whole operands, writes the
 * question as `first + operator + second` and evaluates it. The random draws
 * are parameters (values of `Math.random()`), and the evaluation applies the
 * operator directly instead of evaluating the text.
 */
module QuestionGenerator {
  import opened Options
  import opened JsMath
  import opened Decimal

  datatype Operator = Plus | Minus | Times | Divide {

    function Symbol(): char {
      match this
      case Plus => '+'
      case Minus => '-'
      case Times => '*'
      case Divide => '/'
    }
  }

  /** The operator written as `c`, if any. */
  function OperatorOf(c: char): (r: Option<Operator>)
    ensures r.Some? ==> r.value.Symbol() == c
    ensures r.None? ==> forall op: Operator :: op.Symbol() != c
  {
    if c == '+' then Some(Plus)
    else if c == '-' then Some(Minus)
    else if c == '*' then Some(Times)
    else if c == '/' then Some(Divide)
    else None
  }

  /** What evaluating a question gives: a number, or the NaN / Infinity of a division by zero. */
  datatype Answer = Number(value: real) | NaN | Infinity

  datatype Question = Question(text: string, answer: Answer)

  /** The operands and operator of one question. */
  datatype Problem = Problem(first: nat, op: Operator, second: nat)

  /** Settings handed to the constructor; a missing key keeps its default. */
  datatype Settings = Settings(
    maxNumber: Option<nat>,
    negativeNumbers: Option<bool>,
    wholeNumbers: Option<bool>,
    operators: Option<seq<Operator>>)

  const NoSettings := Settings(None, None, None, None)

  datatype Config = Config(
    maxNumber: nat,
    negativeNumbers: bool,
    wholeNumbers: bool,
    operators: seq<Operator>)

  const DefaultConfig := Config(10, false, true, [Plus, Minus])

  /** `Object.assign(defaults, settings)`: every key present in `top` wins over `base`. */
  function Overlay(base: Settings, top: Settings): (r: Settings)
    ensures top.maxNumber.Some? ==> r.maxNumber == top.maxNumber
    ensures top.maxNumber.None? ==> r.maxNumber == base.maxNumber
    ensures top.negativeNumbers.Some? ==> r.negativeNumbers == top.negativeNumbers
    ensures top.negativeNumbers.None? ==> r.negativeNumbers == base.negativeNumbers
    ensures top.wholeNumbers.Some? ==> r.wholeNumbers == top.wholeNumbers
    ensures top.wholeNumbers.None? ==> r.wholeNumbers == base.wholeNumbers
    ensures top.operators.Some? ==> r.operators == top.operators
    ensures top.operators.None? ==> r.operators == base.operators
  {
    Settings(
      if top.maxNumber.Some? then top.maxNumber else base.maxNumber,
      if top.negativeNumbers.Some? then top.negativeNumbers else base.negativeNumbers,
      if top.wholeNumbers.Some? then top.wholeNumbers else base.wholeNumbers,
      if top.operators.Some? then top.operators else base.operators)
  }

  /** The constructor: supplied settings (or none, for `null`) over the defaults, key by key. */
  function Configure(settings: Option<Settings>): (c: Config)
    ensures settings.None? ==> c == DefaultConfig
    ensures c.maxNumber == settings.GetOr(NoSettings).maxNumber.GetOr(DefaultConfig.maxNumber)
    ensures c.negativeNumbers == settings.GetOr(NoSettings).negativeNumbers.GetOr(DefaultConfig.negativeNumbers)
    ensures c.wholeNumbers == settings.GetOr(NoSettings).wholeNumbers.GetOr(DefaultConfig.wholeNumbers)
    ensures c.operators == settings.GetOr(NoSettings).operators.GetOr(DefaultConfig.operators)
  {
    var s := settings.GetOr(NoSettings);
    Config(
      s.maxNumber.GetOr(10),
      s.negativeNumbers.GetOr(false),
      s.wholeNumbers.GetOr(true),
      s.operators.GetOr([Plus, Minus]))
  }

  /** `_getNumber(max)`: `Math.round(Math.random() * max)`, a whole number in [0, max]. */
  function GetNumber(max: nat, u: real): (r: nat)
    requires UnitDraw(u)
    ensures r <= max
    ensures max == 0 ==> r == 0
  {
    RoundDrawBounds(u, max);
    Round(u * (max as real))
  }

  /**
   * `_getOperator()`: the element at index `Math.round(Math.random() * (length - 1))`.
   * For an empty list that index is 0 or -1 and the element is `undefined` (None).
   */
  function GetOperator(operators: seq<Operator>, u: real): (r: Option<Operator>)
    requires UnitDraw(u)
    ensures |operators| > 0 ==> 0 <= Round(u * ((|operators| - 1) as real)) < |operators|
    ensures |operators| > 0 ==> r == Some(operators[Round(u * ((|operators| - 1) as real))])
    ensures r.Some? <==> |operators| > 0
    ensures r.Some? ==> r.value in operators
  {
    RoundDrawBounds(u, |operators| - 1);
    var k := Round(u * ((|operators| - 1) as real));
    if 0 <= k < |operators| then Some(operators[k]) else None
  }

  /**
   * The operands of `generate()` for the drawn operator: the second operand first
   * for whole-number division, a second operand bounded by the first for
   * subtraction without negative numbers, two independent draws otherwise.
   */
  function Operands(cfg: Config, op: Option<Operator>, u1: real, u2: real): (r: (nat, nat))
    requires UnitDraw(u1) && UnitDraw(u2)
    ensures op == Some(Divide) && cfg.wholeNumbers ==>
      r.1 <= cfg.maxNumber && r.0 == r.1 * GetNumber(cfg.maxNumber, u2)
    ensures !(op == Some(Divide) && cfg.wholeNumbers) && op == Some(Minus) && !cfg.negativeNumbers ==>
      r.1 <= r.0 <= cfg.maxNumber
    ensures !(op == Some(Divide) && cfg.wholeNumbers) && !(op == Some(Minus) && !cfg.negativeNumbers) ==>
      r.0 <= cfg.maxNumber && r.1 <= cfg.maxNumber
  {
    if op == Some(Divide) && cfg.wholeNumbers then
      var second := GetNumber(cfg.maxNumber, u1);
      (second * GetNumber(cfg.maxNumber, u2), second)
    else if op == Some(Minus) && !cfg.negativeNumbers then
      var first := GetNumber(cfg.maxNumber, u1);
      (first, GetNumber(first, u2))
    else
      (GetNumber(cfg.maxNumber, u1), GetNumber(cfg.maxNumber, u2))
  }

  /** The problem behind one `generate()` call; None when the operator list is empty. */
  function Draw(cfg: Config, uOp: real, u1: real, u2: real): (p: Option<Problem>)
    requires UnitDraw(uOp) && UnitDraw(u1) && UnitDraw(u2)
    ensures p.None? <==> cfg.operators == []
    ensures p.Some? ==> p.value.op in cfg.operators
    ensures p.Some? ==> p.value.second <= cfg.maxNumber
  {
    match GetOperator(cfg.operators, uOp)
    case None => None
    case Some(op) =>
      var (first, second) := Operands(cfg, Some(op), u1, u2);
      Some(Problem(first, op, second))
  }

  /** Direct application of the operator, as evaluating `first op second` would compute it. */
  function Apply(p: Problem): Answer {
    match p.op
    case Plus => Number((p.first + p.second) as real)
    case Minus => Number((p.first - p.second) as real)
    case Times => Number((p.first * p.second) as real)
    case Divide =>
      if p.second != 0 then Number((p.first as real) / (p.second as real))
      else if p.first == 0 then NaN
      else Infinity
  }

  /** The question text: `first + operator + second` with both operands in decimal. */
  function Text(p: Problem): string {
    NatToString(p.first) + [p.op.Symbol()] + NatToString(p.second)
  }

  /** Splits a question at its first non-digit, which must be an operator between two numerals. */
  function Parse(s: string): Option<Problem> {
    var i := FirstNonDigit(s);
    if i == 0 || i + 1 >= |s| || !AllDigits(s[i + 1..]) then None
    else
      match OperatorOf(s[i])
      case None => None
      case Some(op) => Some(Problem(ParseNat(s[..i]), op, ParseNat(s[i + 1..])))
  }

  /** Evaluation of a question text, standing in for `eval`. */
  function EvalText(s: string): Option<Answer> {
    match Parse(s)
    case None => None
    case Some(p) => Some(Apply(p))
  }

  /** `generate()`. With no operator the text and the answer are both NaN. */
  function Generate(cfg: Config, uOp: real, u1: real, u2: real): (q: Question)
    requires UnitDraw(uOp) && UnitDraw(u1) && UnitDraw(u2)
    ensures cfg.operators == [] ==> q == Question("NaN", NaN)
    ensures cfg.operators != [] ==> Parse(q.text) == Draw(cfg, uOp, u1, u2)
    ensures cfg.operators != [] ==> EvalText(q.text) == Some(q.answer)
  {
    match Draw(cfg, uOp, u1, u2)
    case None => Question("NaN", NaN)
    case Some(p) =>
      ParseText(p);
      Question(Text(p), Apply(p))
  }

  /** Splitting a question text at its operator recovers both operands and the operator. */
  lemma ParseText(p: Problem)
    ensures Parse(Text(p)) == Some(p)
  {
    var a := NatToString(p.first);
    var b := NatToString(p.second);
    var s := Text(p);
    FirstNonDigitAfterDigits(a, p.op.Symbol(), b);
    assert s[..|a|] == a;
    assert s[|a| + 1..] == b;
    ParseNatToString(p.first);
    ParseNatToString(p.second);
  }

  lemma MulMonotone(a: nat, b: nat, k: nat)
    requires a <= b
    ensures a * k <= b * k
  {
  }

  /** `(s * k) / s == k` for a positive s, in integers and in reals. */
  lemma ExactQuotient(s: nat, k: nat)
    requires s > 0
    ensures (s * k) / s == k && (s * k) % s == 0
    ensures ((s * k) as real) / (s as real) == k as real
  {
  }

  /**
   * Whole-number division: the second operand and the quotient are draws in
   * [0, maxNumber], the first is their product, and the answer is exactly the
   * quotient, or NaN for 0/0.
   */
  lemma DivisionLaw(cfg: Config, uOp: real, u1: real, u2: real)
    requires UnitDraw(uOp) && UnitDraw(u1) && UnitDraw(u2)
    requires cfg.wholeNumbers
    requires GetOperator(cfg.operators, uOp) == Some(Divide)
    ensures var p := Draw(cfg, uOp, u1, u2).value;
      var k := GetNumber(cfg.maxNumber, u2);
      && p.op == Divide
      && p.second <= cfg.maxNumber && k <= cfg.maxNumber
      && p.first == p.second * k
      && p.first <= cfg.maxNumber * cfg.maxNumber
      && (p.second != 0 ==> Apply(p) == Number(k as real) && p.first % p.second == 0)
      && (p.second == 0 ==> p.first == 0 && Apply(p) == NaN)
  {
    var p := Draw(cfg, uOp, u1, u2).value;
    var k := GetNumber(cfg.maxNumber, u2);
    var m := cfg.maxNumber;
    MulMonotone(p.second, m, k);
    MulMonotone(k, m, m);
    assert k * m == m * k;
    if p.second != 0 {
      ExactQuotient(p.second, k);
    }
  }

  /** Subtraction without negative numbers: 0 <= second <= first <= maxNumber, so the answer is in [0, maxNumber]. */
  lemma SubtractionLaw(cfg: Config, uOp: real, u1: real, u2: real)
    requires UnitDraw(uOp) && UnitDraw(u1) && UnitDraw(u2)
    requires !cfg.negativeNumbers
    requires GetOperator(cfg.operators, uOp) == Some(Minus)
    ensures var p := Draw(cfg, uOp, u1, u2).value;
      && p.op == Minus
      && p.second <= p.first <= cfg.maxNumber
      && Apply(p).Number?
      && 0.0 <= Apply(p).value <= cfg.maxNumber as real
  {
  }

  /**
   * Every other case: two independent draws in [0, maxNumber], and the answer is
   * the sum, the difference, the product or the true quotient of the operands.
   */
  lemma IndependentOperandsLaw(cfg: Config, uOp: real, u1: real, u2: real)
    requires UnitDraw(uOp) && UnitDraw(u1) && UnitDraw(u2)
    requires cfg.operators != []
    requires var op := GetOperator(cfg.operators, uOp).value;
      !(op == Divide && cfg.wholeNumbers) && !(op == Minus && !cfg.negativeNumbers)
    ensures var p := Draw(cfg, uOp, u1, u2).value;
      && p.first == GetNumber(cfg.maxNumber, u1) && p.first <= cfg.maxNumber
      && p.second == GetNumber(cfg.maxNumber, u2) && p.second <= cfg.maxNumber
      && (p.op == Plus ==> Apply(p) == Number((p.first + p.second) as real))
      && (p.op == Times ==> Apply(p) == Number((p.first * p.second) as real))
      && (p.op == Minus ==> Apply(p) == Number((p.first as real) - (p.second as real)))
      && (p.op == Divide && p.second != 0 ==> Apply(p) == Number((p.first as real) / (p.second as real)))
  {
  }

  /** With `maxNumber` 0 every operand is 0. */
  lemma ZeroBoundGivesZeros(cfg: Config, uOp: real, u1: real, u2: real)
    requires UnitDraw(uOp) && UnitDraw(u1) && UnitDraw(u2)
    requires cfg.maxNumber == 0 && cfg.operators != []
    ensures Draw(cfg, uOp, u1, u2).value.first == 0
    ensures Draw(cfg, uOp, u1, u2).value.second == 0
  {
  }
}
